=== FILE: README.md ===
# PM Colors — a Dafny model of the highlight core

PM Colors is a RuneLite plugin that recolours private messages from a user-curated list of
players. This project models its core as pure functions over immutable values and proves
what the plugin's code promises:

- **Sender-name extraction.** Each sender label is matched against two regular expressions
  with `java.util.regex` `find()` semantics. First comes `(.*?) has logged (out|in)`, then
  `(From|To) (<img=[0-9]>)?(.*?):`. The model keeps the details that decide the result: the
  leftmost start wins, `.*?` is lazy, the optional icon group is greedy, and `.` never
  crosses a line terminator (`ChatPatterns`).
- **The recolour pass** (`highlightMessages`) over the private-chat widget's children. The
  children are taken in (sender, message) pairs. A matched name gets the colour of a
  highlight whose name equals it ignoring case, or else the default private-message colour
  (`Recolour`).
- **The highlight list store.** This covers `finishCreation`, `deleteHighlight`,
  `updateConfig`, `loadConfig`, `onConfigChanged`, `startUp` and `shutDown`. They act on a
  plugin state holding the list, the selected player, the persisted value under
  `pmcolors.highlightedplayers`, the chat widget's children and the context menu
  (`Persistence`, `Plugin`).
- **The context menu.** This covers the "Highlight"/"Remove highlight" entry, its insertion
  second to last, the click handler, and the script-id whitelist that triggers recolouring
  (`Menu`, `Plugin`).
- **The settings row.** This covers `colorToHex`, the colour picker's change and close
  callbacks, and the confirmed delete (`HexColor`, `SettingsPanel`).

Everything the plugin takes from the host is a field of `Plugin.Host`: the Gson codec,
`Text.toJagexName`, `Text.removeTags`, the default private-message colour, the configured
highlight colour, `WidgetInfo.TO_GROUP` and the private-chat group id,
`ScriptID.OPEN_PRIVATE_MESSAGE_INTERFACE`, and the RUNELITE menu type. Nothing is assumed
about these beyond their types. The one exception is the codec: the round-trip lemmas
require `Persistence.RoundTrips`, meaning decoding an encoded non-empty list gives it back.

Where the code throws, the model keeps the state changes made before the exception and
drops every later statement. The recolour pass reads `children[i + 1]`, so an odd child
count makes it throw after recolouring all complete pairs. This is `Pass.threw`. In the
click handler it also means `selectedPlayer = null` is skipped.

The model follows the code in these details:
- Choosing "Highlight" in the menu adds the entry at once with the configured colour. No
  colour picker opens.
- `loadConfig` drops only null elements. Entries with bad fields are kept.
- The sender-name pattern strips nothing but one `<img=D>` marker with a single digit. Any
  other tags stay in the name.
- Duplicate names are never rejected.
- The lookup is `findAny`. The contracts promise only that the chosen entry matches
  ignoring case, not that it is the first match.

## Model

| member | source | states |
|---|---|---|
| JavaText.EqualsIgnoreCaseIffLowered | src/main/java/com/pmcolors/PMColorsPlugin.java:217 | two names are equal ignoring case exactly when their lower-cased forms are equal |
| JavaText.EqualsIgnoreCaseIsEquivalence | src/main/java/com/pmcolors/PMColorsPlugin.java:278 | ignoring case is reflexive, symmetric and transitive, so it does not matter which name is the receiver |
| Highlights.FindAny | src/main/java/com/pmcolors/PMColorsPlugin.java:216-219 | the lookup finds something exactly when some entry's name equals the name ignoring case, and what it finds is such an entry of the list |
| Highlights.RemoveFirst | src/main/java/com/pmcolors/PMColorsPlugin.java:352 | an absent entry changes nothing; otherwise exactly the first equal entry is removed and the rest keep their order |
| Highlights.RemoveFirstMultiset | src/main/java/com/pmcolors/PMColorsPlugin.java:352 | removal takes away exactly one copy of the entry when present and nothing else |
| ChatPatterns.FindLogged | src/main/java/com/pmcolors/PMColorsPlugin.java:87-88 | the logged-in/out match is the leftmost one, and its name group ends at the first announcement reachable without crossing a line terminator |
| ChatPatterns.FirstColon | src/main/java/com/pmcolors/PMColorsPlugin.java:86 | the lazy name group stops at the nearest ':' reachable without crossing a line terminator |
| ChatPatterns.MatchAt | src/main/java/com/pmcolors/PMColorsPlugin.java:85-86 | an anchored From/To attempt fails only when no match starts there, and it prefers skipping an `<img=D>` marker, then the nearest ':' |
| ChatPatterns.FindSender | src/main/java/com/pmcolors/PMColorsPlugin.java:85-86 | the From/To match is the leftmost one, with the greedy icon skip and lazy name of that start |
| ChatPatterns.SenderNameSpec | src/main/java/com/pmcolors/PMColorsPlugin.java:210-237 | a name is found exactly when one of the two patterns matches, and the logged pattern wins whenever it matches |
| ChatPatterns.LoggedNameIsTextBefore | src/main/java/com/pmcolors/PMColorsPlugin.java:211-214 | on one line, the name is the text before the first " has logged in" or " has logged out" |
| ChatPatterns.FromToNameIsTextAfterPrefix | src/main/java/com/pmcolors/PMColorsPlugin.java:235-237 | on one line without an announcement, the name runs from just after the first "From " or "To ", past one optional `<img=D>`, up to the next ':' |
| ChatPatterns.NoPatternNoName | src/main/java/com/pmcolors/PMColorsPlugin.java:210-253 | a label with no announcement and no "From "/"To " yields no name |
| Recolour.ColourFor | src/main/java/com/pmcolors/PMColorsPlugin.java:238-251 | the colour is that of some highlight matching ignoring case, or the default private-message colour when none matches |
| Recolour.RecolourPair | src/main/java/com/pmcolors/PMColorsPlugin.java:205-253 | a pair with a null half, or whose sender text matches neither pattern, is unchanged; otherwise both labels keep their texts and get the same resolved colour |
| Recolour.RecolourChildren | src/main/java/com/pmcolors/PMColorsPlugin.java:202-206 | children are recoloured in pairs (0,1), (2,3), ...; the pass throws exactly when the count is odd, leaving the last child untouched |
| Recolour.RecolouredByIndex | src/main/java/com/pmcolors/PMColorsPlugin.java:203-206 | every pair (i, i+1) with i even is recoloured, the length is kept, and a lone last child is left alone |
| Recolour.HighlightMessages | src/main/java/com/pmcolors/PMColorsPlugin.java:197-202 | an absent chat widget is left alone without error; a present one is recoloured pair by pair |
| Recolour.RecolourPairTwice | src/main/java/com/pmcolors/PMColorsPlugin.java:207-253 | recolouring a pair again yields the same pair |
| Recolour.RecolourChildrenIdempotent | src/main/java/com/pmcolors/PMColorsPlugin.java:203-255 | a second pass over the recoloured children changes nothing |
| Recolour.HighlightMessagesIdempotent | src/main/java/com/pmcolors/PMColorsPlugin.java:197-257 | running the pass twice gives the same colours as running it once |
| Persistence.DropNulls | src/main/java/com/pmcolors/PMColorsPlugin.java:385 | the survivors are exactly the non-null elements, and there are never more of them |
| Persistence.DropNullsAppend | src/main/java/com/pmcolors/PMColorsPlugin.java:385 | dropping nulls distributes over concatenation, so survivors keep their order |
| Persistence.LoadConfig | src/main/java/com/pmcolors/PMColorsPlugin.java:373-386 | a null or empty value loads as the empty list; otherwise loading fails exactly when decoding does, and yields the non-null decoded entries in their decoded order, each as often as decoded (order through Persistence.DropNullsAppend) |
| Persistence.Persisted | src/main/java/com/pmcolors/PMColorsPlugin.java:360-369 | the key is unset exactly when the list is empty |
| Persistence.LoadPersisted | src/main/java/com/pmcolors/PMColorsPlugin.java:358-386 | loading what was persisted gives back the same list in the same order |
| Menu.InsertMenuEntry | src/main/java/com/pmcolors/PMColorsPlugin.java:320-326 | the menu grows by one; entries before the last are unchanged, the new entry is second to last and the old last entry is last; nothing is lost |
| Menu.HighlightLabel | src/main/java/com/pmcolors/PMColorsPlugin.java:277-285 | the label is "Remove highlight" exactly when some highlight matches the player ignoring case, and "Highlight" exactly when none does |
| Plugin.UpdateConfig | src/main/java/com/pmcolors/PMColorsPlugin.java:358-371 | an empty list unsets the key without recolouring; otherwise the whole list is persisted and the chat is recoloured; the list, selection and menu are untouched |
| Plugin.UpdateConfigLoadsBack | src/main/java/com/pmcolors/PMColorsPlugin.java:366-369 | the value updateConfig stores loads back as the stored list |
| Plugin.StartUp | src/main/java/com/pmcolors/PMColorsPlugin.java:124-128 | the selection is cleared and the loaded entries are appended; an unreadable value appends nothing |
| Plugin.ShutDown | src/main/java/com/pmcolors/PMColorsPlugin.java:147-157 | the list and the selection are cleared while the persisted value stays |
| Plugin.OnConfigChanged | src/main/java/com/pmcolors/PMColorsPlugin.java:166-172 | another group or key changes nothing; for this plugin's group and key the persisted value becomes the event's new value, which the host has already written, and only an empty list takes the loaded entries; an unreadable value loads nothing |
| Plugin.ConfigChangeSurvivesRestart | src/main/java/com/pmcolors/PMColorsPlugin.java:124-172 | a value written under the key from outside the plugin is what shutting down and starting again loads |
| Plugin.OnScriptPostFired | src/main/java/com/pmcolors/PMColorsPlugin.java:185-194 | a script outside the whitelist changes nothing; a whitelisted one recolours the chat and touches nothing else |
| Plugin.OnMenuEntryAdded | src/main/java/com/pmcolors/PMColorsPlugin.java:261-298 | another group clears the selection only; the private-chat group selects the canonical target, and for "Message"/"Lookup" inserts one entry second to last, labelled by whether the player is highlighted |
| Plugin.FinishCreation | src/main/java/com/pmcolors/PMColorsPlugin.java:333-348 | exactly one canonicalised entry is appended, with no duplicate check, iff not aborted and name and colour are present, and then the store is synced and the chat recoloured with the new list; otherwise nothing changes |
| Plugin.DeleteHighlight | src/main/java/com/pmcolors/PMColorsPlugin.java:350-356 | an absent entry leaves the list as it is; otherwise exactly the first equal entry is cut and the others keep their order; the multiset loses exactly that entry, and the store is synced; the chat is recoloured with the remaining list, or keeps its old colours when the list is now empty |
| Plugin.OnPlayerMenuOptionClicked | src/main/java/com/pmcolors/PMColorsPlugin.java:301-317 | "Highlight" appends the selected player with the configured colour; "Remove highlight" removes one entry matching the selected player, if any; either click leaves the store synced and the chat refreshed as updateConfig does; "Highlight" with no selection and "Remove highlight" with no match only clear the selection; other options only clear the selection, which is cleared unless an exception intervenes |
| Plugin.ConfigEchoIsNoOp | src/main/java/com/pmcolors/PMColorsPlugin.java:166-172 | the change event for updateConfig's own write, including the unset of an emptied list, leaves the state as it is |
| Plugin.ScriptPostFiredIdempotent | src/main/java/com/pmcolors/PMColorsPlugin.java:185-193 | handling the same redraw event twice is the same as handling it once |
| Plugin.RedrawAfterUpdateIsNoOp | src/main/java/com/pmcolors/PMColorsPlugin.java:366-370 | right after updateConfig stores a non-empty list, any redraw event changes nothing |
| Plugin.DeleteAbsentKeepsStored | src/main/java/com/pmcolors/PMColorsPlugin.java:350-356 | deleting an entry that is not in the list leaves the list and a synced persisted value unchanged |
| Plugin.RestartRestoresList | src/main/java/com/pmcolors/PMColorsPlugin.java:124-157 | shutting down and starting again restores the persisted list |
| HexColor.ColorToHex | src/main/java/com/pmcolors/ui/PlayerHighlightPanel.java:145-148 | the label has exactly 7 characters, '#' first, then six lowercase hex digits that read back as red, green and blue in that order |
| HexColor.ColorToHexInjective | src/main/java/com/pmcolors/ui/PlayerHighlightPanel.java:147 | two colours with the same label are the same colour |
| SettingsPanel.OpenRow | src/main/java/com/pmcolors/ui/PlayerHighlightPanel.java:80 | a new row's swatch shows the hex form of its highlight's colour |
| SettingsPanel.ColourChanged | src/main/java/com/pmcolors/ui/PlayerHighlightPanel.java:159-164 | a picker change sets the same entry's colour in place and relabels the swatch; the length, the other entries and the persisted value are unchanged |
| SettingsPanel.ColourChangesKeepRowShowing | src/main/java/com/pmcolors/ui/PlayerHighlightPanel.java:159-164 | after any sequence of picker changes the swatch still shows the highlight's current colour |
| SettingsPanel.CloseAfterChangePersistsEdit | src/main/java/com/pmcolors/ui/PlayerHighlightPanel.java:165 | closing the picker runs updateConfig, whose stored value loads back as the edited list |
| SettingsPanel.DeleteClicked | src/main/java/com/pmcolors/ui/PlayerHighlightPanel.java:113-120 | only the confirmation result 0 deletes: the first entry equal to the row's highlight is cut, the others keep their order, the store is synced and the chat refreshed as updateConfig does; any other answer changes nothing |
| Scenarios.FromLabelName | src/main/java/com/pmcolors/PMColorsPlugin.java:85-86 | "From Zezima:" yields Zezima |
| Scenarios.ToLabelWithIconName | src/main/java/com/pmcolors/PMColorsPlugin.java:85-86 | "To <img=2>Zezima: yo" yields Zezima |
| Scenarios.LoggedLabelName | src/main/java/com/pmcolors/PMColorsPlugin.java:87-88 | "Zezima has logged in" yields Zezima |
| Scenarios.ZezimaOrangeWooxDefault | src/main/java/com/pmcolors/PMColorsPlugin.java:235-253 | with Zezima highlighted orange, Zezima's pair turns orange and Woox's pair gets the default colour |

## Left out

- Swing UI is not modelled, for lack of logic to model. This covers layout, icons, hover handlers, `darker()` backgrounds, `ColorPickerManager`, panel rebuilds through `invokeLater`, `setCreation`, and the navigation button. `JOptionPane` appears only as its integer result.
- Thread handoff is not modelled. The injected executor is never used by the modelled code, and each handler is one atomic state transition.
- Widgets are reduced to their text and text colour, and `getRGB` packing to the `Color` value. Every colour is treated as opaque: the alpha channel that `getRGB` carries into the recolour pass is not modelled.
- JavaText.CharEqualsIgnoreCase: folds only ASCII letters. Java's `equalsIgnoreCase` also folds other Unicode letters.
- Persistence.Codec: Gson is an abstract encode/decode pair. Decoded entries whose name or colour is null are not modelled. updateConfig only writes entries that finishCreation built with a non-null name and colour, so only a hand-edited value can hold such entries. What the model therefore drops are the exceptions such an entry causes. The recolour pass throws at PMColorsPlugin.java:224 (logged branch) and PMColorsPlugin.java:245 (From/To branch) when a matched entry has a null colour. A settings row built for it throws in `colorToHex` (PlayerHighlightPanel.java:80, failing at :147) and at the `darker()` call at PlayerHighlightPanel.java:84.
- Plugin.OnMenuEntryAdded: requires a non-empty menu when it inserts. `ArrayUtils.swap` on a one-element array is library behaviour not part of this model, and the host fires the event for an entry already in the menu.
- `Widget.getText()` returning null is not modelled. Neither is a null option or target on a menu event.
- The persisted key is the plugin's `highlightedplayers`. The differently cased `highlightedPlayers` in PMColorsConfig.java is not reconciled with it.
- PlayerHighlight.java is not part of this model. Its equality is taken to be by value, so `List.remove` removes the first equal entry.
- SettingsPanel.Row: locates its highlight by list index, while the Java row holds the `PlayerHighlight` object itself (PlayerHighlightPanel.java:52, 161). The model assumes the index still points at the row's own highlight. It diverges from the code when that entry has moved or left the list before the panel rebuild runs. An example is an earlier entry removed through the menu (PMColorsPlugin.java:314): `ColourChanged` and `DeleteClicked` would then act on whatever entry now sits at that index.

=== FILE: chat_patterns.dfy ===
/** The two sender-label patterns of PMColorsPlugin, with java.util.regex `find()` semantics:
    the leftmost start position that can match wins, a lazy `.*?` stops at the first place
    the rest of the pattern matches, a greedy `?` tries its group before skipping it, and
    `.` never crosses a line terminator. */
module ChatPatterns {
  import opened Options
  import opened JavaText

  /** A match that starts at `start` and whose name group is s[lo..hi]. */
  datatype Found = Found(start: nat, lo: nat, hi: nat)

  function Group(s: string, f: Found): string
    requires f.lo <= f.hi <= |s|
  {
    s[f.lo..f.hi]
  }

  // ---------------------------------------------------------------------------
  // LOGGED_PATTERN  "(.*?) has logged (out|in)"
  // ---------------------------------------------------------------------------

  const HasLoggedOut: string := " has logged out"
  const HasLoggedIn: string := " has logged in"

  predicate LoggedAt(s: string, k: nat) {
    OccursAt(s, k, HasLoggedOut) || OccursAt(s, k, HasLoggedIn)
  }

  /** The pattern matches from p with group 1 equal to s[p..k]. */
  predicate LoggedMatch(s: string, p: nat, k: nat) {
    p <= k <= |s| && NoLineTerminator(s, p, k) && LoggedAt(s, k)
  }

  /** The first position at or after i where " has logged out|in" occurs. */
  function FirstLogged(s: string, i: nat): (r: Option<nat>)
    requires i <= |s|
    ensures r.Some? ==> i <= r.value <= |s| && LoggedAt(s, r.value)
    ensures forall k: nat :: i <= k && LoggedAt(s, k) ==> r.Some? && r.value <= k
    decreases |s| - i
  {
    if LoggedAt(s, i) then Some(i)
    else if i == |s| then None
    else FirstLogged(s, i + 1)
  }

  /** Just after the last line terminator before k, or 0. */
  function LineStart(s: string, k: nat): (p: nat)
    requires k <= |s|
    ensures p <= k && NoLineTerminator(s, p, k)
    ensures p > 0 ==> IsLineTerminator(s[p - 1])
  {
    if k == 0 then 0
    else if IsLineTerminator(s[k - 1]) then k
    else LineStart(s, k - 1)
  }

  lemma LoggedFindIsLeftmost(s: string, k: nat, p: nat)
    requires k <= |s| && LoggedAt(s, k)
    requires forall j: nat :: LoggedAt(s, j) ==> k <= j
    requires p == LineStart(s, k)
    ensures forall p': nat, k': nat :: p' < p ==> !LoggedMatch(s, p', k')
    ensures forall k': nat :: k' < k ==> !LoggedMatch(s, p, k')
  {
    forall p': nat, k': nat | p' < p
      ensures !LoggedMatch(s, p', k')
    {
      if p' <= k' <= |s| && LoggedAt(s, k') {
        assert p' <= p - 1 < k';
        assert IsLineTerminator(s[p - 1]);
      }
    }
  }

  /** Matcher.find() for LOGGED_PATTERN. */
  function FindLogged(s: string): (r: Option<Found>)
    ensures r.None? ==> forall p: nat, k: nat :: !LoggedMatch(s, p, k)
    ensures r.Some? ==> r.value.lo == r.value.start && LoggedMatch(s, r.value.lo, r.value.hi)
    ensures r.Some? ==> forall p: nat, k: nat :: p < r.value.start ==> !LoggedMatch(s, p, k)
    ensures r.Some? ==> forall k: nat :: k < r.value.hi ==> !LoggedMatch(s, r.value.lo, k)
  {
    match FirstLogged(s, 0)
    case None => None
    case Some(k) =>
      var p := LineStart(s, k);
      LoggedFindIsLeftmost(s, k, p);
      Some(Found(p, p, k))
  }

  // ---------------------------------------------------------------------------
  // SENDER_NAME_PATTERN  "(From|To) (<img=[0-9]>)?(.*?):"
  // ---------------------------------------------------------------------------

  /** The position just after a "From " or "To " that starts at p. */
  function AfterPrefix(s: string, p: nat): (r: Option<nat>)
    ensures r.Some? ==> p < r.value <= |s|
  {
    if OccursAt(s, p, "From ") then Some(p + 5)
    else if OccursAt(s, p, "To ") then Some(p + 3)
    else None
  }

  /** An icon marker `<img=D>`, D a single digit, starts at q. */
  predicate ImgAt(s: string, q: nat) {
    q + 7 <= |s| && s[q..q + 5] == "<img=" && '0' <= s[q + 5] <= '9' && s[q + 6] == '>'
  }

  /** `(.*?):` can run from g to a ':' at c. */
  predicate ColonReach(s: string, g: nat, c: nat) {
    g <= c < |s| && s[c] == ':' && NoLineTerminator(s, g, c)
  }

  /** The pattern matches from p with group 3 equal to s[g..c]. */
  predicate SenderMatch(s: string, p: nat, g: nat, c: nat) {
    && AfterPrefix(s, p).Some?
    && var q := AfterPrefix(s, p).value;
       && (g == q || (ImgAt(s, q) && g == q + 7))
       && ColonReach(s, g, c)
  }

  /** The match from f.start that the regex engine reports: the icon group is taken
      whenever the rest can still match, and the name stops at the nearest ':'. */
  ghost predicate Preferred(s: string, f: Found) {
    && (forall g: nat, c: nat :: SenderMatch(s, f.start, g, c) ==> g <= f.lo)
    && (forall c: nat :: SenderMatch(s, f.start, f.lo, c) ==> f.hi <= c)
  }

  /** The nearest ':' reachable from g without crossing a line terminator. */
  function FirstColon(s: string, g: nat): (r: Option<nat>)
    requires g <= |s|
    ensures r.Some? ==> ColonReach(s, g, r.value)
    ensures forall c: nat :: ColonReach(s, g, c) ==> r.Some? && r.value <= c
    decreases |s| - g
  {
    if g == |s| then None
    else if s[g] == ':' then Some(g)
    else if IsLineTerminator(s[g]) then None
    else
      assert forall c: nat :: ColonReach(s, g, c) ==> ColonReach(s, g + 1, c);
      FirstColon(s, g + 1)
  }

  /** One attempt of the matcher anchored at p. */
  function MatchAt(s: string, p: nat): (r: Option<Found>)
    ensures r.None? ==> forall g: nat, c: nat :: !SenderMatch(s, p, g, c)
    ensures r.Some? ==> r.value.start == p && SenderMatch(s, p, r.value.lo, r.value.hi)
    ensures r.Some? ==> Preferred(s, r.value)
  {
    match AfterPrefix(s, p)
    case None => None
    case Some(q) =>
      if ImgAt(s, q) && FirstColon(s, q + 7).Some? then
        Some(Found(p, q + 7, FirstColon(s, q + 7).value))
      else
        match FirstColon(s, q)
        case None => None
        case Some(c) => Some(Found(p, q, c))
  }

  /** Tries the anchored matcher at p, p+1, ... as Matcher.find() does. */
  function FindSenderFrom(s: string, p: nat): (r: Option<Found>)
    requires p <= |s|
    ensures r.Some? ==> p <= r.value.start && SenderMatch(s, r.value.start, r.value.lo, r.value.hi)
    ensures r.Some? ==> Preferred(s, r.value)
    ensures forall p': nat, g: nat, c: nat :: p <= p' && SenderMatch(s, p', g, c) ==>
              r.Some? && r.value.start <= p'
    decreases |s| - p
  {
    match MatchAt(s, p)
    case Some(f) => Some(f)
    case None =>
      if p == |s| then None else FindSenderFrom(s, p + 1)
  }

  /** Matcher.find() for SENDER_NAME_PATTERN. */
  function FindSender(s: string): (r: Option<Found>)
    ensures r.None? ==> forall p: nat, g: nat, c: nat :: !SenderMatch(s, p, g, c)
    ensures r.Some? ==> SenderMatch(s, r.value.start, r.value.lo, r.value.hi) && Preferred(s, r.value)
    ensures r.Some? ==> forall p: nat, g: nat, c: nat :: p < r.value.start ==> !SenderMatch(s, p, g, c)
  {
    FindSenderFrom(s, 0)
  }

  // ---------------------------------------------------------------------------
  // Name extraction, logged pattern first
  // ---------------------------------------------------------------------------

  /** The player name the recolour pass reads from a sender label: group 1 of the
      logged pattern if it matches, otherwise group 3 of the From/To pattern. */
  function SenderName(s: string): Option<string> {
    match FindLogged(s)
    case Some(f) => Some(Group(s, f))
    case None =>
      match FindSender(s)
      case Some(f) => Some(Group(s, f))
      case None => None
  }

  /** A name is found exactly when one of the two patterns matches somewhere, and the
      logged pattern, tried first, wins whenever it matches. */
  lemma SenderNameSpec(s: string)
    ensures SenderName(s).None? <==> (forall p: nat, k: nat :: !LoggedMatch(s, p, k))
                                     && (forall p: nat, g: nat, c: nat :: !SenderMatch(s, p, g, c))
    ensures FindLogged(s).Some? ==> SenderName(s) == Some(Group(s, FindLogged(s).value))
    ensures FindLogged(s).None? && FindSender(s).Some? ==> SenderName(s) == Some(Group(s, FindSender(s).value))
  {
  }

  /** On a single line, a label containing " has logged in" or " has logged out" yields
      the text before the first such occurrence. */
  lemma LoggedNameIsTextBefore(s: string, k: nat)
    requires k <= |s| && LoggedAt(s, k)
    requires forall j: nat :: j < k ==> !LoggedAt(s, j)
    requires NoLineTerminator(s, 0, k)
    ensures SenderName(s) == Some(s[..k])
  {
    assert LoggedMatch(s, 0, k);
  }

  /** On a single line without a logged announcement, the name is the text after the
      first "From " or "To ", past one `<img=D>` marker if present, up to the next ':'. */
  lemma FromToNameIsTextAfterPrefix(s: string, p: nat, q: nat, c: nat)
    requires forall j: nat :: !LoggedAt(s, j)
    requires NoLineTerminator(s, 0, |s|)
    requires AfterPrefix(s, p) == Some(q)
    requires forall j: nat :: j < p ==> AfterPrefix(s, j).None?
    requires var g := if ImgAt(s, q) then q + 7 else q;
             g <= c < |s| && s[c] == ':' && forall j :: g <= j < c ==> s[j] != ':'
    ensures SenderName(s) == Some(s[(if ImgAt(s, q) then q + 7 else q)..c])
  {
    var g := if ImgAt(s, q) then q + 7 else q;
    assert SenderMatch(s, p, g, c);
  }

  /** Neither pattern matching leaves the name unknown, so the pair keeps its colours. */
  lemma NoPatternNoName(s: string)
    requires forall j: nat :: !LoggedAt(s, j)
    requires forall p: nat :: AfterPrefix(s, p).None?
    ensures SenderName(s).None?
  {
    assert forall p: nat, k: nat :: !LoggedMatch(s, p, k);
    assert forall p: nat, g: nat, c: nat :: !SenderMatch(s, p, g, c);
  }
}

=== FILE: hex_color.dfy ===
/** The settings row's colour label: String.format("#%02x%02x%02x", red, green, blue). */
module HexColor {
  import opened Options
  import opened Highlights

  const HexDigits: string := "0123456789abcdef"

  function HexDigit(d: int): char
    requires 0 <= d < 16
  {
    HexDigits[d]
  }

  predicate IsLowerHexDigit(c: char) {
    '0' <= c <= '9' || 'a' <= c <= 'f'
  }

  /** The value of a lowercase hex digit. */
  function DigitValue(c: char): (v: int)
    requires IsLowerHexDigit(c)
    ensures 0 <= v < 16
  {
    if '0' <= c <= '9' then c as int - '0' as int else c as int - 'a' as int + 10
  }

  /** `%02x` of a value in 0..255: always two zero-padded lowercase digits. */
  function Hex2(x: Channel): string {
    [HexDigit(x / 16), HexDigit(x % 16)]
  }

  /** Reads back the two digits at s[i], s[i+1]. */
  function ByteAt(s: string, i: nat): int
    requires i + 1 < |s| && IsLowerHexDigit(s[i]) && IsLowerHexDigit(s[i + 1])
  {
    16 * DigitValue(s[i]) + DigitValue(s[i + 1])
  }

  /** Parses "#rrggbb" back into a colour; the inverse of ColorToHex. */
  function ParseHex(s: string): Option<Color> {
    if |s| == 7 && s[0] == '#' && forall k :: 1 <= k < 7 ==> IsLowerHexDigit(s[k]) then
      Some(Color(ByteAt(s, 1), ByteAt(s, 3), ByteAt(s, 5)))
    else None
  }

  lemma DigitRoundTrip(d: int)
    requires 0 <= d < 16
    ensures IsLowerHexDigit(HexDigit(d)) && DigitValue(HexDigit(d)) == d
  {
  }

  function ColorToHex(c: Color): (r: string)
    ensures |r| == 7 && r[0] == '#'
    ensures forall k :: 1 <= k < 7 ==> IsLowerHexDigit(r[k])
    ensures ByteAt(r, 1) == c.red && ByteAt(r, 3) == c.green && ByteAt(r, 5) == c.blue
    ensures ParseHex(r) == Some(c)
  {
    DigitRoundTrip(c.red / 16);
    DigitRoundTrip(c.red % 16);
    DigitRoundTrip(c.green / 16);
    DigitRoundTrip(c.green % 16);
    DigitRoundTrip(c.blue / 16);
    DigitRoundTrip(c.blue % 16);
    "#" + Hex2(c.red) + Hex2(c.green) + Hex2(c.blue)
  }

  /** Two colours with the same label are the same colour. */
  lemma ColorToHexInjective(a: Color, b: Color)
    ensures ColorToHex(a) == ColorToHex(b) ==> a == b
  {
  }
}

=== FILE: highlights.dfy ===
/** The PlayerHighlight record and the list operations the plugin performs on it. */
module Highlights {
  import opened Options
  import opened JavaText

  /** One 8-bit colour component, as java.awt.Color.getRed/getGreen/getBlue return it. */
  type Channel = x: int | 0 <= x < 256

  datatype Color = Color(red: Channel, green: Channel, blue: Channel)

  datatype Highlight = Highlight(name: string, color: Color)

  /** The stream filter `name.equalsIgnoreCase(p.getName())`. */
  predicate Matches(name: string, h: Highlight) {
    EqualsIgnoreCase(name, h.name)
  }

  /** `stream().filter(Matches).findAny().orElse(null)`. Callers may rely only on the
      chosen entry being a member that matches, never on which member it is. */
  function FindAny(list: seq<Highlight>, name: string): (r: Option<Highlight>)
    ensures r.Some? <==> exists h :: h in list && Matches(name, h)
    ensures r.Some? ==> r.value in list && Matches(name, r.value)
  {
    if |list| == 0 then None
    else if Matches(name, list[0]) then Some(list[0])
    else FindAny(list[1..], name)
  }

  /** The position of the first entry equal to h, or |list| when there is none. */
  function IndexOf(list: seq<Highlight>, h: Highlight): (i: nat)
    ensures i <= |list|
    ensures i < |list| ==> list[i] == h
    ensures forall j :: 0 <= j < i ==> list[j] != h
  {
    if |list| == 0 then 0
    else if list[0] == h then 0
    else 1 + IndexOf(list[1..], h)
  }

  /** List.remove(Object): drops the first entry equal to h, if there is one. */
  function RemoveFirst(list: seq<Highlight>, h: Highlight): (r: seq<Highlight>)
    ensures h !in list ==> r == list
    ensures h in list ==> exists i :: 0 <= i < |list| && list[i] == h && h !in list[..i]
                                      && r == list[..i] + list[i + 1..]
  {
    var i := IndexOf(list, h);
    if i == |list| then list
    else
      assert h !in list[..i];
      list[..i] + list[i + 1..]
  }

  /** Removing takes away exactly one copy of h when present and nothing otherwise. */
  lemma RemoveFirstMultiset(list: seq<Highlight>, h: Highlight)
    ensures multiset(RemoveFirst(list, h)) == multiset(list) - multiset{h}
  {
    var i := IndexOf(list, h);
    if i < |list| {
      assert list == list[..i] + [h] + list[i + 1..];
      assert multiset(list) == multiset(list[..i]) + multiset{h} + multiset(list[i + 1..]);
    } else {
      assert h !in multiset(list);
    }
  }
}

=== FILE: java_text.dfy ===
/** The pieces of java.lang.String and java.util.regex behaviour the plugin relies on. */
module JavaText {

  /** The characters a regex `.` refuses to match when no flags are given. */
  predicate IsLineTerminator(c: char) {
    c == '\n' || c == '\r' || c == '\U{0085}' || c == '\U{2028}' || c == '\U{2029}'
  }

  /** No character of s[lo..hi] is a line terminator, so `.*` can run across it. */
  predicate NoLineTerminator(s: string, lo: nat, hi: nat)
    requires lo <= hi <= |s|
  {
    forall k :: lo <= k < hi ==> !IsLineTerminator(s[k])
  }

  /** The word w occurs in s starting at index k. */
  predicate OccursAt(s: string, k: nat, w: string) {
    k + |w| <= |s| && s[k..k + |w|] == w
  }

  /** Character.toUpperCase, restricted to ASCII letters. */
  function ToUpper(c: char): char {
    if 'a' <= c <= 'z' then (c as int - 32) as char else c
  }

  /** Character.toLowerCase, restricted to ASCII letters. */
  function ToLower(c: char): char {
    if 'A' <= c <= 'Z' then (c as int + 32) as char else c
  }

  /** The per-character test of String.regionMatches with ignoreCase set. */
  predicate CharEqualsIgnoreCase(a: char, b: char) {
    a == b || ToUpper(a) == ToUpper(b) || ToLower(ToUpper(a)) == ToLower(ToUpper(b))
  }

  /** String.equalsIgnoreCase: same length and every position equal ignoring case. */
  predicate EqualsIgnoreCase(a: string, b: string) {
    |a| == |b| && forall k :: 0 <= k < |a| ==> CharEqualsIgnoreCase(a[k], b[k])
  }

  function Lowered(s: string): string {
    seq(|s|, k requires 0 <= k < |s| => ToLower(s[k]))
  }

  /** Ignoring case is the same as comparing the lower-cased characters. */
  lemma CharEqualsIgnoreCaseIffLower(a: char, b: char)
    ensures CharEqualsIgnoreCase(a, b) <==> ToLower(a) == ToLower(b)
  {
    assert ToLower(ToUpper(a)) == ToLower(a);
    assert ToLower(ToUpper(b)) == ToLower(b);
  }

  /** equalsIgnoreCase holds exactly when the lower-cased strings are equal. */
  lemma EqualsIgnoreCaseIffLowered(a: string, b: string)
    ensures EqualsIgnoreCase(a, b) <==> Lowered(a) == Lowered(b)
  {
    forall k | 0 <= k < |a| && k < |b| {
      CharEqualsIgnoreCaseIffLower(a[k], b[k]);
    }
    if Lowered(a) == Lowered(b) {
      forall k | 0 <= k < |a|
        ensures CharEqualsIgnoreCase(a[k], b[k])
      {
        assert Lowered(a)[k] == Lowered(b)[k];
      }
    }
  }

  /** equalsIgnoreCase is an equivalence relation, so which name is the receiver does not matter. */
  lemma EqualsIgnoreCaseIsEquivalence(a: string, b: string, c: string)
    ensures EqualsIgnoreCase(a, a)
    ensures EqualsIgnoreCase(a, b) ==> EqualsIgnoreCase(b, a)
    ensures EqualsIgnoreCase(a, b) && EqualsIgnoreCase(b, c) ==> EqualsIgnoreCase(a, c)
  {
    EqualsIgnoreCaseIffLowered(a, a);
    EqualsIgnoreCaseIffLowered(a, b);
    EqualsIgnoreCaseIffLowered(b, a);
    EqualsIgnoreCaseIffLowered(b, c);
    EqualsIgnoreCaseIffLowered(a, c);
  }
}

=== FILE: menu.dfy ===
/** The right-click menu pieces of PMColorsPlugin: the synthetic entry's label and where
    insertMenuEntry places it. */
module Menu {
  import opened Highlights

  datatype MenuEntry = MenuEntry(option: string, target: string, kind: int,
                                 param0: int, param1: int, identifier: int)

  /** The existing options next to which the synthetic entry is offered. */
  const AfterOptions: seq<string> := ["Message", "Lookup"]

  const HighlightOption: string := "Highlight"
  const RemoveHighlightOption: string := "Remove highlight"

  /** ArrayUtils.swap of two in-range positions. */
  function Swap<T>(a: seq<T>, i: nat, j: nat): (r: seq<T>)
    requires i < |a| && j < |a|
    ensures |r| == |a| && r[i] == a[j] && r[j] == a[i]
    ensures forall k :: 0 <= k < |a| && k != i && k != j ==> r[k] == a[k]
  {
    a[i := a[j]][j := a[i]]
  }

  /** ObjectArrays.concat then a swap of the last two slots: the new entry ends up
      second to last, just below the entry that was last. */
  function InsertMenuEntry(entry: MenuEntry, entries: seq<MenuEntry>): (r: seq<MenuEntry>)
    requires |entries| > 0
    ensures |r| == |entries| + 1
    ensures r[..|entries| - 1] == entries[..|entries| - 1]
    ensures r[|entries| - 1] == entry
    ensures r[|entries|] == entries[|entries| - 1]
    ensures multiset(r) == multiset(entries) + multiset{entry}
  {
    var menu := entries + [entry];
    var r := Swap(menu, |menu| - 1, |menu| - 2);
    assert r == entries[..|entries| - 1] + [entry] + [entries[|entries| - 1]];
    assert entries == entries[..|entries| - 1] + [entries[|entries| - 1]];
    r
  }

  /** "Remove highlight" when some highlight's name equals the player's ignoring case,
      "Highlight" otherwise. */
  function HighlightLabel(list: seq<Highlight>, player: string): (r: string)
    ensures r == RemoveHighlightOption <==> exists h :: h in list && Matches(player, h)
    ensures r == HighlightOption <==> forall h :: h in list ==> !Matches(player, h)
  {
    if FindAny(list, player).None? then HighlightOption else RemoveHighlightOption
  }
}

=== FILE: options.dfy ===
/** The optional value used wherever the Java code may hold `null`. */
module Options {

  datatype Option<+T> = None | Some(value: T)
}

=== FILE: persistence.dfy ===
/** The highlight list's single persisted value (group "pmcolors", key "highlightedplayers"):
    updateConfig writes it and loadConfig reads it. The JSON codec is abstract. */
module Persistence {
  import opened Options
  import opened Highlights

  const ConfigGroup: string := "pmcolors"
  const ConfigKey: string := "highlightedplayers"

  /** Gson's toJson and fromJson for a list of highlights. `decode` yields None when fromJson
      throws or returns null, and a null element of the decoded list is None. */
  datatype Codec = Codec(encode: seq<Highlight> -> string,
                         decode: string -> Option<seq<Option<Highlight>>>)

  function Wrap(list: seq<Highlight>): seq<Option<Highlight>> {
    seq(|list|, i requires 0 <= i < |list| => Some(list[i]))
  }

  /** The codec gives back every non-empty list it wrote, in order, from a non-empty string. */
  ghost predicate RoundTrips(codec: Codec) {
    forall list: seq<Highlight> {:trigger codec.encode(list)} :: |list| > 0 ==>
      codec.encode(list) != "" && codec.decode(codec.encode(list)) == Some(Wrap(list))
  }

  /** `stream().filter(Objects::nonNull)`. */
  function DropNulls(items: seq<Option<Highlight>>): (r: seq<Highlight>)
    ensures |r| <= |items|
    ensures forall h :: h in r <==> Some(h) in items
  {
    if |items| == 0 then []
    else (if items[0].Some? then [items[0].value] else []) + DropNulls(items[1..])
  }

  /** Dropping nulls keeps the survivors in their original order. */
  lemma {:induction false} DropNullsAppend(a: seq<Option<Highlight>>, b: seq<Option<Highlight>>)
    ensures DropNulls(a + b) == DropNulls(a) + DropNulls(b)
    decreases |a|
  {
    if |a| == 0 {
      assert a + b == b;
    } else {
      var head := if a[0].Some? then [a[0].value] else [];
      assert (a + b)[0] == a[0];
      assert (a + b)[1..] == a[1..] + b;
      DropNullsAppend(a[1..], b);
      calc {
        DropNulls(a + b);
        head + DropNulls(a[1..] + b);
        head + (DropNulls(a[1..]) + DropNulls(b));
        (head + DropNulls(a[1..])) + DropNulls(b);
        DropNulls(a) + DropNulls(b);
      }
    }
  }

  lemma {:induction false} DropNullsWrap(list: seq<Highlight>)
    ensures DropNulls(Wrap(list)) == list
    decreases |list|
  {
    if |list| > 0 {
      assert Wrap(list)[1..] == Wrap(list[1..]);
      DropNullsWrap(list[1..]);
    }
  }

  /** loadConfig: a null or empty value is the empty list; otherwise the decoded list
      without its null elements. None stands for fromJson throwing or returning null. */
  function LoadConfig(codec: Codec, json: Option<string>): (r: Option<seq<Highlight>>)
    ensures json.None? || json == Some("") ==> r == Some([])
    ensures json.Some? && json.value != "" ==> (r.None? <==> codec.decode(json.value).None?)
    ensures r.Some? && json.Some? && json.value != "" ==>
              forall h :: h in r.value <==> Some(h) in codec.decode(json.value).value
    ensures r.Some? && json.Some? && json.value != "" ==>
              r.value == DropNulls(codec.decode(json.value).value)
  {
    match json
    case None => Some([])
    case Some(text) =>
      if text == "" then Some([])
      else
        match codec.decode(text)
        case None => None
        case Some(items) => Some(DropNulls(items))
  }

  /** What updateConfig leaves under the key: unset for an empty list, else the encoding. */
  function Persisted(codec: Codec, list: seq<Highlight>): (r: Option<string>)
    ensures r.None? <==> |list| == 0
  {
    if |list| == 0 then None else Some(codec.encode(list))
  }

  /** Loading what was persisted gives back the same list, in order. */
  lemma LoadPersisted(codec: Codec, list: seq<Highlight>)
    requires RoundTrips(codec)
    ensures LoadConfig(codec, Persisted(codec, list)) == Some(list)
  {
    if |list| > 0 {
      assert codec.encode(list) != "";
      DropNullsWrap(list);
    }
  }
}

=== FILE: plugin.dfy ===
/** PMColorsPlugin's event handlers as transitions of one plugin state. */
module Plugin {
  import opened Options
  import opened Highlights
  import opened Recolour
  import opened Persistence
  import opened Menu

  /** Everything the plugin takes from the host client and libraries it calls into. */
  datatype Host = Host(
    codec: Codec,                      // Gson toJson / fromJson
    toJagexName: string -> string,     // Text.toJagexName
    removeTags: string -> string,      // Text.removeTags
    pmTextColor: Color,                // JagexColors.CHAT_PRIVATE_MESSAGE_TEXT_TRANSPARENT_BACKGROUND
    highlightColor: Color,             // PMColorsConfig.highlightColor()
    toGroup: int -> int,               // WidgetInfo.TO_GROUP
    privateChatGroup: int,             // WidgetInfo.PRIVATE_CHAT_MESSAGE.getGroupId()
    openPrivateMessageScript: int,     // ScriptID.OPEN_PRIVATE_MESSAGE_INTERFACE
    runeliteMenuType: int)             // MenuAction.RUNELITE.getId()

  /** The plugin's fields together with the host state its handlers touch: the value
      persisted under the plugin's key, the private-chat widget's children (None when the
      widget is not rendered) and the current context menu. */
  datatype State = State(
    highlights: seq<Highlight>,
    selected: Option<string>,
    stored: Option<string>,
    chat: Option<Children>,
    menu: seq<MenuEntry>)

  /** The persisted value is what updateConfig would write for the current list. */
  predicate Synced(host: Host, s: State) {
    s.stored == Persisted(host.codec, s.highlights)
  }

  /** The recolour pass would read past the end of the children. */
  predicate ChatOdd(chat: Option<Children>) {
    chat.Some? && |chat.value| % 2 == 1
  }

  /** updateConfig throws exactly when it runs the recolour pass and the pass throws;
      `s` is the state updateConfig starts from. */
  predicate UpdateConfigThrows(s: State) {
    |s.highlights| > 0 && ChatOdd(s.chat)
  }

  /** What updateConfig leaves in the chat once the list is `list`: an emptied list returns
      before the recolour pass, so the chat keeps its old colours; otherwise the pass runs. */
  ghost predicate ChatRefreshed(host: Host, list: seq<Highlight>, before: Option<Children>,
                                after: Option<Children>)
  {
    if |list| == 0 then after == before
    else
      && after.Some? == before.Some?
      && (before.Some? ==> Recoloured(list, host.pmTextColor, before.value, after.value))
  }

  function RecolourChat(host: Host, s: State): State {
    s.(chat := HighlightMessages(s.highlights, host.pmTextColor, s.chat).chat)
  }

  /** updateConfig: an empty list unsets the key and stops; otherwise the whole list is
      stored and the messages are recoloured. */
  function UpdateConfig(host: Host, s: State): (r: State)
    ensures r.highlights == s.highlights && r.selected == s.selected && r.menu == s.menu
    ensures Synced(host, r)
    ensures |s.highlights| == 0 ==> r.stored.None? && r.chat == s.chat
    ensures |s.highlights| > 0 ==> r.chat.Some? == s.chat.Some?
    ensures |s.highlights| > 0 && s.chat.Some? ==>
              Recoloured(s.highlights, host.pmTextColor, s.chat.value, r.chat.value)
    ensures ChatRefreshed(host, r.highlights, s.chat, r.chat)
  {
    if |s.highlights| == 0 then
      s.(stored := None)
    else
      RecolourChat(host, s.(stored := Some(host.codec.encode(s.highlights))))
  }

  /** startUp: clears the selection and appends the persisted list; a value fromJson
      cannot read makes startUp throw before anything is appended. */
  function StartUp(host: Host, s: State): (r: State)
    ensures r.selected.None? && r.stored == s.stored && r.chat == s.chat && r.menu == s.menu
    ensures LoadConfig(host.codec, s.stored).None? ==> r.highlights == s.highlights
    ensures LoadConfig(host.codec, s.stored).Some? ==>
              r.highlights == s.highlights + LoadConfig(host.codec, s.stored).value
  {
    match LoadConfig(host.codec, s.stored)
    case Some(loaded) => s.(selected := None, highlights := s.highlights + loaded)
    case None => s.(selected := None)
  }

  /** shutDown: forgets the list and the selection; the persisted value stays. */
  function ShutDown(s: State): (r: State)
    ensures r.highlights == [] && r.selected.None?
    ensures r.stored == s.stored && r.chat == s.chat && r.menu == s.menu
  {
    s.(highlights := [], selected := None)
  }

  /** onConfigChanged. The host has already stored the new value under the key when it fires
      the event, so the persisted value follows it; the value is loaded only into an empty
      list, and only for exactly this plugin's group and key. A value fromJson cannot read
      makes the handler throw before anything is appended. */
  function OnConfigChanged(host: Host, s: State, group: string, key: string, newValue: Option<string>)
    : (r: State)
    ensures !(group == ConfigGroup && key == ConfigKey) ==> r == s
    ensures group == ConfigGroup && key == ConfigKey ==> r.stored == newValue
    ensures r.selected == s.selected && r.chat == s.chat && r.menu == s.menu
    ensures |s.highlights| > 0 ==> r.highlights == s.highlights
    ensures |s.highlights| == 0 && group == ConfigGroup && key == ConfigKey ==>
              match LoadConfig(host.codec, newValue)
              case None => r.highlights == s.highlights
              case Some(loaded) => r.highlights == loaded
  {
    if group == ConfigGroup && key == ConfigKey then
      var written := s.(stored := newValue);
      if |s.highlights| == 0 then
        match LoadConfig(host.codec, newValue)
        case Some(loaded) => written.(highlights := s.highlights + loaded)
        case None => written
      else written
    else s
  }

  /** The script ids after which the chat renderer has reset the text colours. */
  predicate ScriptTriggersRecolour(host: Host, id: int) {
    id == 663 || id == 664 || id == host.openPrivateMessageScript
    || id == 112 || id == 924 || id == 175 || id == 80
  }

  /** onScriptPostFired: recolours after a whitelisted script and otherwise does nothing. */
  function OnScriptPostFired(host: Host, s: State, id: int): (r: State)
    ensures !ScriptTriggersRecolour(host, id) ==> r == s
    ensures r.highlights == s.highlights && r.selected == s.selected
    ensures r.stored == s.stored && r.menu == s.menu
    ensures r.chat.Some? == s.chat.Some?
    ensures ScriptTriggersRecolour(host, id) && s.chat.Some? ==>
              Recoloured(s.highlights, host.pmTextColor, s.chat.value, r.chat.value)
  {
    if ScriptTriggersRecolour(host, id) then RecolourChat(host, s) else s
  }

  datatype MenuEntryAdded = MenuEntryAdded(option: string, target: string,
                                           param0: int, param1: int, identifier: int)

  /** The player a menu event targets, colour tags stripped and canonicalised. */
  function TargetPlayer(host: Host, ev: MenuEntryAdded): string {
    host.toJagexName(host.removeTags(ev.target))
  }

  predicate InPrivateChat(host: Host, ev: MenuEntryAdded) {
    host.toGroup(ev.param1) == host.privateChatGroup
  }

  /** onMenuEntryAdded. The host fires it for an entry already in the menu, so the menu
      is non-empty whenever an entry is inserted. */
  function OnMenuEntryAdded(host: Host, s: State, ev: MenuEntryAdded): (r: State)
    requires InPrivateChat(host, ev) && ev.option in AfterOptions ==> |s.menu| > 0
    ensures r.highlights == s.highlights && r.stored == s.stored && r.chat == s.chat
    ensures !InPrivateChat(host, ev) ==> r == s.(selected := None)
    ensures InPrivateChat(host, ev) ==> r.selected == Some(TargetPlayer(host, ev))
    ensures InPrivateChat(host, ev) && ev.option !in AfterOptions ==> r.menu == s.menu
    ensures InPrivateChat(host, ev) && ev.option in AfterOptions ==>
              var n := |s.menu|;
              && |r.menu| == n + 1
              && r.menu[..n - 1] == s.menu[..n - 1]
              && r.menu[n] == s.menu[n - 1]
              && r.menu[n - 1].target == ev.target
              && r.menu[n - 1].kind == host.runeliteMenuType
              && r.menu[n - 1].param0 == ev.param0 && r.menu[n - 1].param1 == ev.param1
              && r.menu[n - 1].identifier == ev.identifier
              && (r.menu[n - 1].option == RemoveHighlightOption <==>
                    exists h :: h in s.highlights && Matches(TargetPlayer(host, ev), h))
              && (r.menu[n - 1].option == HighlightOption <==>
                    forall h :: h in s.highlights ==> !Matches(TargetPlayer(host, ev), h))
  {
    if InPrivateChat(host, ev) then
      var player := TargetPlayer(host, ev);
      var s1 := s.(selected := Some(player));
      if ev.option !in AfterOptions then s1
      else
        var entry := MenuEntry(HighlightLabel(s.highlights, player), ev.target, host.runeliteMenuType,
                               ev.param0, ev.param1, ev.identifier);
        s1.(menu := InsertMenuEntry(entry, s.menu))
    else
      s.(selected := None)
  }

  /** finishCreation: appends one canonicalised entry, without any duplicate check, when
      not aborted and both name and colour are present; otherwise changes nothing. */
  function FinishCreation(host: Host, s: State, aborted: bool, name: Option<string>, color: Option<Color>)
    : (r: State)
    ensures !aborted && name.Some? && color.Some? ==>
              && r.highlights == s.highlights + [Highlight(host.toJagexName(name.value), color.value)]
              && Synced(host, r)
              && ChatRefreshed(host, r.highlights, s.chat, r.chat)
    ensures !(!aborted && name.Some? && color.Some?) ==> r == s
    ensures r.selected == s.selected && r.menu == s.menu
  {
    if !aborted && name.Some? && color.Some? then
      var h := Highlight(host.toJagexName(name.value), color.value);
      UpdateConfig(host, s.(highlights := s.highlights + [h]))
    else s
  }

  /** deleteHighlight: removes the first entry equal to h, then updateConfig. */
  function DeleteHighlight(host: Host, s: State, h: Highlight): (r: State)
    ensures h in s.highlights ==> |r.highlights| == |s.highlights| - 1
    ensures h !in s.highlights ==> r.highlights == s.highlights
    ensures h in s.highlights ==>
              exists i :: 0 <= i < |s.highlights| && s.highlights[i] == h && h !in s.highlights[..i]
                          && r.highlights == s.highlights[..i] + s.highlights[i + 1..]
    ensures multiset(r.highlights) == multiset(s.highlights) - multiset{h}
    ensures Synced(host, r)
    ensures ChatRefreshed(host, r.highlights, s.chat, r.chat)
    ensures r.selected == s.selected && r.menu == s.menu
  {
    RemoveFirstMultiset(s.highlights, h);
    UpdateConfig(host, s.(highlights := RemoveFirst(s.highlights, h)))
  }

  /** onPlayerMenuOptionClicked. An exception thrown by the recolour pass inside
      updateConfig, or by the lookup on a null selection, skips the final reset of the
      selection. */
  function OnPlayerMenuOptionClicked(host: Host, s: State, option: string): (r: State)
    ensures option != HighlightOption && option != RemoveHighlightOption ==> r == s.(selected := None)
    ensures option == HighlightOption && s.selected.Some? ==>
              r.highlights == s.highlights + [Highlight(host.toJagexName(s.selected.value), host.highlightColor)]
    ensures option == RemoveHighlightOption && s.selected.Some? ==>
              if exists h :: h in s.highlights && Matches(s.selected.value, h) then
                exists h :: h in s.highlights && Matches(s.selected.value, h)
                            && r.highlights == RemoveFirst(s.highlights, h)
              else r.highlights == s.highlights
    ensures option == HighlightOption && s.selected.None? ==> r == s.(selected := None)
    ensures option == HighlightOption && s.selected.Some? ==>
              Synced(host, r) && ChatRefreshed(host, r.highlights, s.chat, r.chat)
    ensures option == RemoveHighlightOption && s.selected.Some? ==>
              if exists h :: h in s.highlights && Matches(s.selected.value, h) then
                Synced(host, r) && ChatRefreshed(host, r.highlights, s.chat, r.chat)
              else r == s.(selected := None)
    ensures option == RemoveHighlightOption && s.selected.None? && |s.highlights| > 0 ==> r == s
    ensures option == RemoveHighlightOption && s.selected.None? && |s.highlights| == 0 ==>
              r == s.(selected := None)
    ensures !ChatOdd(s.chat) ==> r.selected.None?
    ensures r.menu == s.menu
  {
    if option == HighlightOption then
      var r := FinishCreation(host, s, false, s.selected, Some(host.highlightColor));
      if s.selected.Some? && UpdateConfigThrows(s.(highlights := r.highlights)) then r
      else r.(selected := None)
    else if option == RemoveHighlightOption then
      match s.selected
      case None =>
        if |s.highlights| == 0 then s.(selected := None) else s
      case Some(player) =>
        match FindAny(s.highlights, player)
        case None => s.(selected := None)
        case Some(h) =>
          var r := DeleteHighlight(host, s, h);
          if UpdateConfigThrows(s.(highlights := r.highlights)) then r else r.(selected := None)
    else
      s.(selected := None)
  }

  /** Whatever updateConfig stores loads back as the list it stored. */
  lemma UpdateConfigLoadsBack(host: Host, s: State)
    requires RoundTrips(host.codec)
    ensures LoadConfig(host.codec, UpdateConfig(host, s).stored) == Some(s.highlights)
  {
    LoadPersisted(host.codec, s.highlights);
  }

  /** The config-changed event the host fires for updateConfig's own write (including the
      unset of an emptied list) never changes the list. */
  lemma ConfigEchoIsNoOp(host: Host, s: State)
    ensures var r := UpdateConfig(host, s);
            OnConfigChanged(host, r, ConfigGroup, ConfigKey, r.stored) == r
  {
  }

  /** A value written under the key from outside the plugin is what the next start loads. */
  lemma ConfigChangeSurvivesRestart(host: Host, s: State, newValue: Option<string>)
    requires LoadConfig(host.codec, newValue).Some?
    ensures var r := OnConfigChanged(host, s, ConfigGroup, ConfigKey, newValue);
            StartUp(host, ShutDown(r)).highlights == LoadConfig(host.codec, newValue).value
  {
  }

  /** Redraw events arrive many times per interaction; handling one twice is the same as once. */
  lemma ScriptPostFiredIdempotent(host: Host, s: State, id: int)
    ensures var once := OnScriptPostFired(host, s, id);
            OnScriptPostFired(host, once, id) == once
  {
    HighlightMessagesIdempotent(s.highlights, host.pmTextColor, s.chat);
  }

  /** Right after updateConfig has stored a non-empty list, a redraw changes nothing. */
  lemma RedrawAfterUpdateIsNoOp(host: Host, s: State, id: int)
    requires |s.highlights| > 0
    ensures var r := UpdateConfig(host, s);
            OnScriptPostFired(host, r, id) == r
  {
    HighlightMessagesIdempotent(s.highlights, host.pmTextColor, s.chat);
  }

  /** Deleting a highlight that is not in the list leaves a synced persisted value as it was. */
  lemma DeleteAbsentKeepsStored(host: Host, s: State, h: Highlight)
    requires h !in s.highlights && Synced(host, s)
    ensures var r := DeleteHighlight(host, s, h);
            r.highlights == s.highlights && r.stored == s.stored
  {
  }

  /** Shutting down and starting again restores the list from the persisted value. */
  lemma RestartRestoresList(host: Host, s: State)
    requires RoundTrips(host.codec) && Synced(host, s)
    ensures StartUp(host, ShutDown(s)).highlights == s.highlights
  {
    LoadPersisted(host.codec, s.highlights);
  }
}

=== FILE: recolour.dfy ===
/** The recolour pass of PMColorsPlugin.highlightMessages over the private-chat widget's
    dynamic children, which come in (sender label, message label) pairs. */
module Recolour {
  import opened Options
  import opened Highlights
  import opened ChatPatterns

  /** A text widget: only its text and its text colour matter here. */
  datatype Widget = Widget(text: string, color: Color)

  type Children = seq<Option<Widget>>

  /** The children after a pass, and whether the pass threw while reading past the end. */
  datatype Pass = Pass(children: Children, threw: bool)

  /** What the pass does to the private-chat widget, which may not be rendered at all. */
  datatype Outcome = Outcome(chat: Option<Children>, threw: bool)

  /** The colour a matched name must get: the colour of some highlight whose name equals
      it ignoring case, or the default private-message colour when there is none. */
  ghost predicate ResolvedColour(list: seq<Highlight>, name: string, default: Color, col: Color) {
    if exists h :: h in list && Matches(name, h) then
      exists h :: h in list && Matches(name, h) && h.color == col
    else
      col == default
  }

  function ColourFor(list: seq<Highlight>, name: string, default: Color): (col: Color)
    ensures ResolvedColour(list, name, default, col)
  {
    match FindAny(list, name)
    case Some(h) => h.color
    case None => default
  }

  /** What one (sender, message) pair must become. */
  ghost predicate PairRecoloured(list: seq<Highlight>, default: Color,
                                 sender: Option<Widget>, msg: Option<Widget>,
                                 sender': Option<Widget>, msg': Option<Widget>)
  {
    if sender.Some? && msg.Some? && SenderName(sender.value.text).Some? then
      && sender'.Some? && msg'.Some?
      && sender'.value.text == sender.value.text
      && msg'.value.text == msg.value.text
      && sender'.value.color == msg'.value.color
      && ResolvedColour(list, SenderName(sender.value.text).value, default, sender'.value.color)
    else
      sender' == sender && msg' == msg
  }

  function RecolourPair(list: seq<Highlight>, default: Color, sender: Option<Widget>, msg: Option<Widget>)
    : (r: (Option<Widget>, Option<Widget>))
    ensures PairRecoloured(list, default, sender, msg, r.0, r.1)
  {
    if sender.Some? && msg.Some? then
      match SenderName(sender.value.text)
      case Some(name) =>
        var col := ColourFor(list, name, default);
        (Some(sender.value.(color := col)), Some(msg.value.(color := col)))
      case None => (sender, msg)
    else
      (sender, msg)
  }

  /** `after` is `before` with the pairs (0,1), (2,3), ... recoloured in turn and a lone
      last child left untouched. */
  ghost predicate Recoloured(list: seq<Highlight>, default: Color, before: Children, after: Children)
    decreases |before|
  {
    if |before| < 2 then after == before
    else
      && |after| == |before|
      && PairRecoloured(list, default, before[0], before[1], after[0], after[1])
      && Recoloured(list, default, before[2..], after[2..])
  }

  /** The loop `for (i = 0; i < children.length; i += 2)` reading children[i] and children[i + 1];
      an odd count makes the last read go past the end after every earlier pair is done. */
  function RecolourChildren(list: seq<Highlight>, default: Color, children: Children): (r: Pass)
    ensures Recoloured(list, default, children, r.children)
    ensures r.threw <==> |children| % 2 == 1
    decreases |children|
  {
    if |children| == 0 then Pass([], false)
    else if |children| == 1 then Pass(children, true)
    else
      var pair := RecolourPair(list, default, children[0], children[1]);
      var rest := RecolourChildren(list, default, children[2..]);
      RecolouredPrepend(list, default, children, pair.0, pair.1, rest.children);
      ParityAfterPair(|children|);
      Pass([pair.0, pair.1] + rest.children, rest.threw)
  }

  lemma ParityAfterPair(n: nat)
    requires n >= 2
    ensures (n - 2) % 2 == n % 2
  {
  }

  /** One recoloured pair in front of recoloured remaining children recolours them all. */
  lemma RecolouredPrepend(list: seq<Highlight>, default: Color, before: Children,
                          sender': Option<Widget>, msg': Option<Widget>, rest: Children)
    requires |before| >= 2
    requires PairRecoloured(list, default, before[0], before[1], sender', msg')
    requires Recoloured(list, default, before[2..], rest)
    ensures Recoloured(list, default, before, [sender', msg'] + rest)
  {
    assert ([sender', msg'] + rest)[2..] == rest;
  }

  /** highlightMessages: an absent widget is left alone and is not an error. */
  function HighlightMessages(list: seq<Highlight>, default: Color, chat: Option<Children>): (r: Outcome)
    ensures chat.None? ==> r == Outcome(None, false)
    ensures chat.Some? ==> r.chat.Some? && Recoloured(list, default, chat.value, r.chat.value)
    ensures r.threw <==> chat.Some? && |chat.value| % 2 == 1
  {
    match chat
    case None => Outcome(None, false)
    case Some(children) =>
      var p := RecolourChildren(list, default, children);
      Outcome(Some(p.children), p.threw)
  }

  /** The recursive reading of the loop agrees with its indexed reading: every pair
      (i, i + 1) with i even is recoloured, and a lone last child is left alone. */
  lemma {:induction false} RecolouredByIndex(list: seq<Highlight>, default: Color, before: Children, after: Children, i: nat)
    requires Recoloured(list, default, before, after)
    ensures |after| == |before|
    ensures i % 2 == 0 && i + 1 < |before| ==>
              PairRecoloured(list, default, before[i], before[i + 1], after[i], after[i + 1])
    ensures i % 2 == 0 && i + 1 == |before| ==> after[i] == before[i]
    decreases i
  {
    if |before| < 2 {
    } else if i < 2 {
      assert |after| == |before|;
    } else if i < |before| {
      RecolouredByIndex(list, default, before[2..], after[2..], i - 2);
      ParityAfterPair(i);
      assert before[2..][i - 2] == before[i];
      assert after[2..][i - 2] == after[i];
      if i + 1 < |before| {
        assert before[2..][i - 1] == before[i + 1];
        assert after[2..][i - 1] == after[i + 1];
      }
    } else {
      assert |after| == |before|;
    }
  }

  lemma RecolourPairTwice(list: seq<Highlight>, default: Color, sender: Option<Widget>, msg: Option<Widget>)
    ensures var r := RecolourPair(list, default, sender, msg);
            RecolourPair(list, default, r.0, r.1) == r
  {
  }

  /** The pass reads only texts, which it never changes, so a second pass changes nothing. */
  lemma {:induction false} RecolourChildrenIdempotent(list: seq<Highlight>, default: Color, children: Children)
    ensures var once := RecolourChildren(list, default, children).children;
            RecolourChildren(list, default, once).children == once
    decreases |children|
  {
    if |children| >= 2 {
      var once := RecolourChildren(list, default, children).children;
      var pair := RecolourPair(list, default, children[0], children[1]);
      var rest := RecolourChildren(list, default, children[2..]).children;
      assert once == [pair.0, pair.1] + rest;
      RecolourPairTwice(list, default, children[0], children[1]);
      RecolourChildrenIdempotent(list, default, children[2..]);
      assert once[2..] == rest;
    }
  }

  lemma HighlightMessagesIdempotent(list: seq<Highlight>, default: Color, chat: Option<Children>)
    ensures var once := HighlightMessages(list, default, chat);
            HighlightMessages(list, default, once.chat) == once
  {
    if chat.Some? {
      RecolourChildrenIdempotent(list, default, chat.value);
    }
  }
}

=== FILE: scenarios.dfy ===
/** Worked cases of the recolour pass on concrete labels. */
module Scenarios {
  import opened Options
  import opened JavaText
  import opened Highlights
  import opened ChatPatterns
  import opened Recolour

  /** java.awt.Color.ORANGE. */
  const Orange: Color := Color(255, 200, 0)

  /** A label in which no space is followed by 'h' has no logged announcement. */
  lemma NoLoggedWithoutSpaceH(s: string)
    requires forall j :: 0 <= j && j + 1 < |s| ==> s[j] != ' ' || s[j + 1] != 'h'
    ensures forall j: nat :: !LoggedAt(s, j)
  {
    forall j: nat
      ensures !LoggedAt(s, j)
    {
      if j + |HasLoggedIn| <= |s| {
        assert s[j..j + |HasLoggedIn|][0] == s[j] && s[j..j + |HasLoggedIn|][1] == s[j + 1];
      }
      if j + |HasLoggedOut| <= |s| {
        assert s[j..j + |HasLoggedOut|][0] == s[j] && s[j..j + |HasLoggedOut|][1] == s[j + 1];
      }
    }
  }

  const IconLabel: string := "To <img=2>Zezima: yo"

  lemma IconLabelShape()
    ensures forall j: nat :: !LoggedAt(IconLabel, j)
    ensures NoLineTerminator(IconLabel, 0, |IconLabel|)
    ensures AfterPrefix(IconLabel, 0) == Some(3) && ImgAt(IconLabel, 3)
    ensures IconLabel[16] == ':' && forall j :: 10 <= j < 16 ==> IconLabel[j] != ':'
    ensures IconLabel[10..16] == "Zezima"
  {
    var s := IconLabel;
    assert s[0..5][0] != "From "[0];
    assert OccursAt(s, 0, "To ");
    NoLoggedWithoutSpaceH(s);
  }

  lemma ToLabelWithIconName()
    ensures SenderName(IconLabel) == Some("Zezima")
  {
    IconLabelShape();
    FromToNameIsTextAfterPrefix(IconLabel, 0, 3, 16);
  }

  const FromLabel: string := "From Zezima:"
  const WooxLabel: string := "From Woox:"
  const LoggedLabel: string := "Zezima has logged in"

  lemma FromLabelShape()
    ensures forall j: nat :: !LoggedAt(FromLabel, j)
    ensures NoLineTerminator(FromLabel, 0, |FromLabel|)
    ensures AfterPrefix(FromLabel, 0) == Some(5) && !ImgAt(FromLabel, 5)
    ensures FromLabel[11] == ':' && forall j :: 5 <= j < 11 ==> FromLabel[j] != ':'
    ensures FromLabel[5..11] == "Zezima"
  {
    assert OccursAt(FromLabel, 0, "From ");
  }

  lemma FromLabelName()
    ensures SenderName(FromLabel) == Some("Zezima")
  {
    FromLabelShape();
    FromToNameIsTextAfterPrefix(FromLabel, 0, 5, 11);
  }

  lemma WooxLabelShape()
    ensures forall j: nat :: !LoggedAt(WooxLabel, j)
    ensures NoLineTerminator(WooxLabel, 0, |WooxLabel|)
    ensures AfterPrefix(WooxLabel, 0) == Some(5) && !ImgAt(WooxLabel, 5)
    ensures WooxLabel[9] == ':' && forall j :: 5 <= j < 9 ==> WooxLabel[j] != ':'
    ensures WooxLabel[5..9] == "Woox"
  {
    assert OccursAt(WooxLabel, 0, "From ");
  }

  lemma WooxLabelName()
    ensures SenderName(WooxLabel) == Some("Woox")
  {
    WooxLabelShape();
    FromToNameIsTextAfterPrefix(WooxLabel, 0, 5, 9);
  }

  lemma LoggedLabelShape()
    ensures LoggedAt(LoggedLabel, 6)
    ensures forall j: nat :: j < 6 ==> !LoggedAt(LoggedLabel, j)
    ensures NoLineTerminator(LoggedLabel, 0, 6)
    ensures LoggedLabel[..6] == "Zezima"
  {
    var s := LoggedLabel;
    assert s[6..20] == HasLoggedIn;
    forall j: nat | j < 6
      ensures !LoggedAt(s, j)
    {
      assert s[j] != ' ';
      if j + |HasLoggedIn| <= |s| {
        assert s[j..j + |HasLoggedIn|][0] == s[j] != HasLoggedIn[0];
      }
      if j + |HasLoggedOut| <= |s| {
        assert s[j..j + |HasLoggedOut|][0] == s[j] != HasLoggedOut[0];
      }
    }
  }

  lemma LoggedLabelName()
    ensures SenderName(LoggedLabel) == Some("Zezima")
  {
    LoggedLabelShape();
    LoggedNameIsTextBefore(LoggedLabel, 6);
  }

  lemma ZezimaPair(default: Color, c0: Color, c1: Color)
    ensures RecolourPair([Highlight("Zezima", Orange)], default,
                         Some(Widget(FromLabel, c0)), Some(Widget("hi", c1)))
            == (Some(Widget(FromLabel, Orange)), Some(Widget("hi", Orange)))
  {
    FromLabelName();
    assert Matches("Zezima", Highlight("Zezima", Orange));
  }

  lemma WooxPair(default: Color, c0: Color, c1: Color)
    ensures RecolourPair([Highlight("Zezima", Orange)], default,
                         Some(Widget(WooxLabel, c0)), Some(Widget("yo", c1)))
            == (Some(Widget(WooxLabel, default)), Some(Widget("yo", default)))
  {
    WooxLabelName();
    assert !Matches("Woox", Highlight("Zezima", Orange));
  }

  /** A highlighted sender gets its highlight's colour on both labels; an unknown one
      gets the default private-message colour. */
  lemma ZezimaOrangeWooxDefault(default: Color, c0: Color, c1: Color, c2: Color, c3: Color)
    ensures var list := [Highlight("Zezima", Orange)];
            var before := [Some(Widget(FromLabel, c0)), Some(Widget("hi", c1)),
                           Some(Widget(WooxLabel, c2)), Some(Widget("yo", c3))];
            RecolourChildren(list, default, before).children ==
              [Some(Widget(FromLabel, Orange)), Some(Widget("hi", Orange)),
               Some(Widget(WooxLabel, default)), Some(Widget("yo", default))]
  {
    var list := [Highlight("Zezima", Orange)];
    var before := [Some(Widget(FromLabel, c0)), Some(Widget("hi", c1)),
                   Some(Widget(WooxLabel, c2)), Some(Widget("yo", c3))];
    ZezimaPair(default, c0, c1);
    WooxPair(default, c2, c3);
    assert before[2..][2..] == [];
    var tail := RecolourChildren(list, default, before[2..]).children;
    assert tail == [Some(Widget(WooxLabel, default)), Some(Widget("yo", default))];
  }
}

=== FILE: settings_panel.dfy ===
/** One row of the settings panel (PlayerHighlightPanel): the swatch label, the colour
    picker's change and close callbacks, and the confirmed delete. */
module SettingsPanel {
  import opened Options
  import opened Highlights
  import opened HexColor
  import opened Persistence
  import opened Plugin

  /** A row shows the highlight at `index` of the plugin's list; `swatch` is its label text. */
  datatype Row = Row(index: nat, swatch: string)

  /** The row's label is the hex form of its highlight's current colour. */
  predicate RowShows(s: State, row: Row) {
    row.index < |s.highlights| && row.swatch == ColorToHex(s.highlights[row.index].color)
  }

  /** The constructor's `setText(colorToHex(playerHighlight.getColor()))`. */
  function OpenRow(s: State, i: nat): (row: Row)
    requires i < |s.highlights|
    ensures row.index == i && RowShows(s, row)
    ensures |row.swatch| == 7 && row.swatch[0] == '#'
  {
    Row(i, ColorToHex(s.highlights[i].color))
  }

  datatype Edit = Edit(state: State, row: Row)

  /** The picker's change callback: sets the colour of the same highlight in place and
      relabels the swatch. Nothing is persisted or recoloured until the picker closes. */
  function ColourChanged(s: State, row: Row, c: Color): (e: Edit)
    requires row.index < |s.highlights|
    ensures e.row.index == row.index && RowShows(e.state, e.row)
    ensures |e.state.highlights| == |s.highlights|
    ensures e.state.highlights[row.index] == Highlight(s.highlights[row.index].name, c)
    ensures forall j :: 0 <= j < |s.highlights| && j != row.index ==>
              e.state.highlights[j] == s.highlights[j]
    ensures e.state.stored == s.stored && e.state.chat == s.chat
    ensures e.state.selected == s.selected && e.state.menu == s.menu
  {
    var h := s.highlights[row.index];
    var s' := s.(highlights := s.highlights[row.index := h.(color := c)]);
    Edit(s', Row(row.index, ColorToHex(c)))
  }

  /** Every picker change keeps the swatch label in step with the highlight's colour. */
  lemma {:induction false} ColourChangesKeepRowShowing(s: State, row: Row, cs: seq<Color>)
    requires RowShows(s, row)
    ensures var e := ApplyChanges(s, row, cs); RowShows(e.state, e.row) && e.row.index == row.index
    decreases |cs|
  {
    if |cs| > 0 {
      var e := ColourChanged(s, row, cs[0]);
      ColourChangesKeepRowShowing(e.state, e.row, cs[1..]);
    }
  }

  function ApplyChanges(s: State, row: Row, cs: seq<Color>): Edit
    requires row.index < |s.highlights|
    decreases |cs|
  {
    if |cs| == 0 then Edit(s, row)
    else
      var e := ColourChanged(s, row, cs[0]);
      ApplyChanges(e.state, e.row, cs[1..])
  }

  /** The picker's close callback runs updateConfig, after which the stored value loads
      back as the edited list. */
  lemma CloseAfterChangePersistsEdit(host: Host, s: State, row: Row, c: Color)
    requires RoundTrips(host.codec) && row.index < |s.highlights|
    ensures var e := ColourChanged(s, row, c);
            var closed := UpdateConfig(host, e.state);
            LoadConfig(host.codec, closed.stored) == Some(e.state.highlights)
            && e.state.highlights[row.index].color == c
  {
    UpdateConfigLoadsBack(host, ColourChanged(s, row, c).state);
  }

  /** The delete control: deleteHighlight runs only when the confirmation dialog returns 0
      (OK); any other answer leaves everything untouched. */
  function DeleteClicked(host: Host, s: State, row: Row, confirm: int): (r: State)
    requires row.index < |s.highlights|
    ensures confirm != 0 ==> r == s
    ensures confirm == 0 ==> |r.highlights| == |s.highlights| - 1 && Synced(host, r)
    ensures confirm == 0 ==> ChatRefreshed(host, r.highlights, s.chat, r.chat)
    ensures confirm == 0 ==>
              multiset(r.highlights) == multiset(s.highlights) - multiset{s.highlights[row.index]}
    ensures confirm == 0 ==>
              exists i :: 0 <= i <= row.index && s.highlights[i] == s.highlights[row.index]
                          && s.highlights[row.index] !in s.highlights[..i]
                          && r.highlights == s.highlights[..i] + s.highlights[i + 1..]
  {
    if confirm == 0 then DeleteHighlight(host, s, s.highlights[row.index]) else s
  }
}
